=== FILE: README.md ===
# Reminder bot: a Dafny model of the reminder pipeline

This project models the core of a chat reminder bot. The bot receives a chat
message, has a language model turn it into an intent object, normalises the
intent's date, time and recurrence, and then creates, lists, updates, deletes
or snoozes rows of a `Reminder` table. Each command is answered with exactly
one chat message.

The modules follow the source files:

- `Common` (common.dfy): `Option`, and `Field`. A `Field` is a property of a
  JavaScript object: `Missing` (undefined), `Null`, or a `Value`.
- `Time` (time.dfy): a JavaScript `Date` is `Invalid` or `At(ms)`. It gives
  the calendar fields of a time value and the date-fns helpers `addDays`,
  `setHours` and `setMinutes`, plus `getHours` and `getMinutes`. Local time
  is UTC.
- `Utils` (utils.dfy): `parseDate`, `parseTime` and `parseRecurrence` from
  bot/utils.js. The clock is the parameter `now`. date-fns `parse` is the
  parameter `parse`, which returns `None` when it throws.
- `ReminderModel` (reminder.dfy): the `Reminder` record of models/reminder.js
  and `Valid`, the schema's `allowNull: false` constraints. It also models what
  `Reminder.create` (`Build`) and `reminder.update` (`Merge`) do to a record.
- `ReminderService` (reminder_service.dfy): the class `ReminderStore`. It holds
  the table as a `map<int, Reminder>` from primary key to record, plus the next
  auto-increment key. Its methods are the six service operations. The
  invariant `TableOk` says every stored record is `Storable`.
- `YophoneBot` (yophone_bot.dfy): what each handler does to the table and
  which text it sends back, as a pure function per handler (`SetStep`,
  `ViewStep`, ...). `Respond` is the switch of `handleCommand` over them, and
  `Replay` is a whole `getUpdates` batch. The class `Bot` holds the store, the
  help message and an `outbox` of sent messages. Its handler methods,
  `HandleCommand` and the loop of `PollUpdates` are proved to leave exactly
  the table and the messages those functions give. The language model's
  answer is the input `Option<Intent>`.

Points where the model makes the source's behaviour explicit:

- date-fns `parse` does not throw on a malformed string. It returns the
  invalid date, and that date flows on unchanged (`ParseDateParsed`,
  `ParseTimeInvalid`). The fallback to "tomorrow" or 09:00 happens only for a
  missing or empty string, or when `parse` throws.
- Sequelize `create` stores null for an attribute that is not given.
  `update` skips undefined attributes, and a null attribute overwrites the
  column. A `notNull` violation makes the operation fail and leaves the table
  as it was. PostgreSQL refuses the invalid date. `Storable` is therefore
  `Valid` plus "the date is a time value" (the database's narrower date range
  is left out, see below), and every failure of this kind is
  the error `Rejected`.
- `snoozeTime` is read as a JavaScript number. An undefined value is NaN, so
  the new date is invalid and the snooze is rejected. `null` counts as 0.
- The schema in models/reminder.js declares no `completed` column. The
  service filters on one (services/reminderService.js:10, 14). The model
  assumes a table that has a boolean `completed` column that defaults to
  false. So `Reminder` carries `completed: bool`, which `Build` sets to false,
  and the store may be opened over a table that already holds completed rows.
  Nothing in the code sets the column to true. "## Left out" says what happens
  on the table that `sequelize.sync()` builds from the schema instead.
- The dispatcher follows the switch of bot/yophoneBot.js:198-225 literally.
  An intent whose `action` is missing, null or not a case label gets
  "Unknown command" (bot/yophoneBot.js:223-224). Only a null intent gets
  "Failed to parse command. Please try again." (bot/yophoneBot.js:193-196).
- `text` may be the empty string. The schema forbids null only.
- `updateReminder`, `deleteReminder` and `snoozeReminder` look a reminder up
  by id alone. A chat can change any user's reminder if it knows the id, and
  the model does the same.

## Model

| member | source | states |
|---|---|---|
| `Common.Nullable` | bot/yophoneBot.js:59-64 | a property where undefined and null act alike has a value exactly when it is present and non-null, and then has that value |
| `Time.AddDays` | bot/utils.js:5 | `addDays` moves the calendar day by n and keeps hour, minute, second and millisecond; the invalid date stays invalid |
| `Time.GetHours` | bot/utils.js:27 | `getHours` is NaN exactly on the invalid date, else an hour in 0..23 |
| `Time.GetMinutes` | bot/utils.js:27 | `getMinutes` is NaN exactly on the invalid date, else a minute in 0..59 |
| `Time.SetMinutes` | bot/utils.js:21 | `setMinutes` with a minute in 0..59 sets that minute and keeps day, hour and seconds; NaN or an invalid date gives the invalid date |
| `Time.SetHours` | bot/utils.js:21 | `setHours` with an hour in 0..23 sets that hour and keeps day, minute and seconds; NaN or an invalid date gives the invalid date |
| `Utils.ParseDate` | bot/utils.js:3-17 | the result is either tomorrow at the current time of day or exactly what parse returned for the string, and it is always tomorrow when the string is missing or empty |
| `Utils.ParseDateFallback` | bot/utils.js:3-14 | with no date string, or when parse throws, `parseDate` is now plus exactly one day: the next calendar day at the current time of day |
| `Utils.ParseDateParsed` | bot/utils.js:9-16 | whatever parse returns is the result, including the invalid date of a malformed string; only an exception falls back |
| `Utils.ParseTime` | bot/utils.js:19-34 | a valid result lies on the same calendar day as the input date, with the same seconds and milliseconds |
| `Utils.ParseTimeDefault` | bot/utils.js:20-22 | with no time string, or when parse throws, the result is the input date at 09:00 |
| `Utils.ParseTimeParsed` | bot/utils.js:24-27 | a parsed HH:mm time gives the result its hour and minute; day, seconds and validity come from the date |
| `Utils.ParseTimeInvalid` | bot/utils.js:26-27 | a time string that parses to the invalid date makes the result invalid |
| `Utils.ParseRecurrence` | bot/utils.js:36-45 | the result is '' exactly when the input is missing or empty; otherwise it is the input unchanged |
| `Utils.ParseRecurrenceIdempotent` | bot/utils.js:36-45 | normalising a recurrence twice equals normalising it once |
| `ReminderModel.Build` | models/reminder.js:4-25 | a created record has the given id and is not completed; it satisfies the schema exactly when text, date, priority and userId are all given non-null |
| `ReminderModel.Assign` | services/reminderService.js:20 | under `update` one column keeps its value when the attribute is undefined, and otherwise takes the attribute's value, which is null for null |
| `ReminderModel.Merge` | services/reminderService.js:20 | an update keeps id and completed; a valid record stays valid exactly when the update sets none of text, date, priority, userId to null |
| `ReminderModel.MergeKeepsMissing` | services/reminderService.js:17-22 | every attribute the update does not supply keeps its old value |
| `ReminderModel.MergeTextOnly` | services/reminderService.js:17-22 | an update of the text alone changes only the text |
| `ReminderModel.RecurrenceMayBeNull` | models/reminder.js:13-16 | a record without a recurrence still satisfies the schema |
| `ReminderService.Storable` | models/reminder.js:4-25 | a storable record has a text, a priority, an owner and a date that is a real time value; a record breaking an `allowNull: false` constraint, or dated with the invalid date PostgreSQL refuses, is not storable |
| `ReminderService.Lookup` | services/reminderService.js:18-19 | findByPk finds a record exactly when the key is given and present, and returns the record stored under it |
| `ReminderService.Minutes` | services/reminderService.js:33 | snoozeTime reads as NaN exactly when it is undefined |
| `ReminderService.Later` | services/reminderService.js:33 | the new date is valid exactly when the old date and the minutes are, and it lies minutes × 60000 ms later |
| `ReminderService.Snoozed` | services/reminderService.js:33-34 | a snoozed record differs from the original in its date only; a valid date moves exactly minutes × 60000 ms later, a null snoozeTime keeps it, and an undefined snoozeTime (or no date) makes it the invalid date |
| `ReminderService.SnoozedStorable` | services/reminderService.js:33-34 | snoozing a stored record gives a storable record exactly when snoozeTime is a number |
| `ReminderService.SnoozeAdditive` | services/reminderService.js:30-35 | snoozing by m1 and then by m2 equals snoozing once by m1 + m2 |
| `ReminderService.SnoozeTwiceTable` | services/reminderService.js:30-35 | on the table, two snoozes of one record leave the same table as one snooze by the sum |
| `ReminderService.Matching` | services/reminderService.js:10 | the `findAll` selection over keys lo..hi-1 holds no more records than keys in that range, each owned by the user and with the requested completed flag; `MatchingSpec` gives the converse and the ascending, distinct keys |
| `ReminderService.MatchingSpec` | services/reminderService.js:10 | the selection holds exactly the records of the user with the given completed flag, each once, in ascending key order |
| `ReminderService.Active` | services/reminderService.js:9-11 | the active list is exactly the user's stored records with completed false, in key order, all storable |
| `ReminderService.Completed` | services/reminderService.js:13-15 | the history list is exactly the user's stored records with completed true, in key order, all storable |
| `ReminderService.ActiveCompletedPartition` | services/reminderService.js:9-15 | a user's active and completed lists are disjoint and together hold every record of that user |
| `ReminderService.ReminderStore.constructor` | models/reminder.js:4 | the store opens over a table in which every record is storable and keyed below the next id |
| `ReminderService.ReminderStore.CreateReminder` | services/reminderService.js:3-7 | inserts the built record under a fresh key if it can be stored and leaves the other records alone; otherwise fails with Rejected and changes nothing |
| `ReminderService.ReminderStore.GetReminders` | services/reminderService.js:9-11 | returns the user's active list and changes nothing |
| `ReminderService.ReminderStore.GetCompletedReminders` | services/reminderService.js:13-15 | returns the user's completed list and changes nothing |
| `ReminderService.ReminderStore.UpdateReminder` | services/reminderService.js:17-22 | an absent key fails with NotFound and changes nothing; otherwise only that record is replaced by the merge, or the update fails with Rejected and changes nothing |
| `ReminderService.ReminderStore.DeleteReminder` | services/reminderService.js:24-28 | an absent key fails with NotFound and changes nothing; otherwise exactly that key is removed |
| `ReminderService.ReminderStore.SnoozeReminder` | services/reminderService.js:30-36 | an absent key fails with NotFound and changes nothing; otherwise only that record's date moves by snoozeTime minutes, or a NaN snoozeTime fails with Rejected and changes nothing |
| `YophoneBot.CommandOf` | bot/yophoneBot.js:198-225 | the switch selects a handler only for an action that is one of that case's labels |
| `YophoneBot.CommandOfNames` | bot/yophoneBot.js:198-225 | each action string selects the one command that names it, so 'help' and 'hi' select the same handler; a missing, null or unknown action selects the default case |
| `YophoneBot.NatText` | bot/yophoneBot.js:80 | helper for the id in a listing line: the decimal text of a natural number is non-empty and all digits |
| `YophoneBot.IntText` | bot/yophoneBot.js:80 | helper for the id in a listing line: non-empty, and it starts with '-' exactly for a negative number |
| `YophoneBot.Line` | bot/yophoneBot.js:80 | a listing line starts with the reminder's id followed by ": " |
| `YophoneBot.Lines` | bot/yophoneBot.js:80-81 | the newline-joined listing (also used for the history at line 130) is empty exactly when there is no reminder to list, and otherwise starts with the first reminder's line |
| `YophoneBot.PriorityOr` | bot/yophoneBot.js:65 | `priority \|\| 'low'` is the given priority when it is a non-empty string and 'low' otherwise |
| `YophoneBot.SetReminderData` | bot/yophoneBot.js:61-67 | the reminder data passes the intent's text and the chat as owner, and always supplies a date, a recurrence and a non-empty priority |
| `YophoneBot.UpdateData` | bot/yophoneBot.js:90-95 | the update data is the set_reminder data without the owner, so an update never changes a reminder's owner |
| `YophoneBot.SetReminderRecord` | bot/yophoneBot.js:58-67 | set_reminder builds a record owned by the chat, with priority `priority \|\| 'low'`, date `parseTime(time, parseDate(date))`, the normalised recurrence, and completed false; it can be stored exactly when the intent has a text and the date is valid |
| `YophoneBot.DefaultDateIsTomorrowAtNine` | bot/yophoneBot.js:60 | with neither date nor time, the reminder is dated tomorrow at 09:00 |
| `YophoneBot.BuyGroceriesExample` | bot/yophoneBot.js:143 | the help text's example "set reminder Buy groceries, 2023-10-15, 10:00, daily, high", with the date and time parsed, stores a record on that day at 10:00, daily, priority high, not completed |
| `YophoneBot.UpdateOverwritesOmitted` | bot/yophoneBot.js:87-95 | an update that omits date, time, recurrence and priority moves the reminder to tomorrow 09:00 with priority 'low' and recurrence ''; an omitted text and the owner are kept |
| `YophoneBot.CreatedText` | bot/yophoneBot.js:71 | the set_reminder reply is "Reminder created: ", the record's text, " on ", its formatted date, " with recurrence: ", its recurrence and " and priority: ", and it ends with its priority |
| `YophoneBot.UpdatedText` | bot/yophoneBot.js:99 | the update_reminder reply is "Reminder updated: ", the record's text, " on ", its formatted date, " with recurrence: ", its recurrence and " and priority: ", and it ends with its priority |
| `YophoneBot.SnoozedText` | bot/yophoneBot.js:121 | the snooze_reminder reply is "Reminder snoozed to: " followed by exactly the formatted new date |
| `YophoneBot.ReminderDate` | bot/yophoneBot.js:60 | `parseTime(time, parseDate(date))` is valid only on a valid parsed day and keeps that day; without a time string it is valid exactly when the day is, at 09:00 |
| `YophoneBot.SuccessIsNotFailure` | bot/yophoneBot.js:69-73 | a handler's success message is never its failure message |
| `YophoneBot.SetStep` | bot/yophoneBot.js:58-75 | set_reminder keeps the table valid; it sends the failure text exactly when the record built from the intent cannot be stored (no text, or an invalid date), and then the table is unchanged; otherwise it adds exactly that record under the next key, leaves every other record alone and sends "Reminder created: …" for the stored record |
| `YophoneBot.UpdateStep` | bot/yophoneBot.js:87-103 | update_reminder keeps the table valid and its keys; it sends the failure text exactly when the id is not found or the merged record cannot be stored, and then the table is unchanged; otherwise only the addressed record becomes the merge, and the reply is "Reminder updated: …" for the stored record |
| `YophoneBot.DeleteStep` | bot/yophoneBot.js:105-114 | delete_reminder keeps the table valid; it sends the failure text exactly when the id is not found, and then the table is unchanged; otherwise it sends "Reminder deleted." and removes exactly that key, leaving every other record alone |
| `YophoneBot.SnoozeStep` | bot/yophoneBot.js:116-125 | snooze_reminder keeps the table valid and its keys; it sends the failure text exactly when the id is not found or snoozeTime is undefined, and then the table is unchanged; otherwise only the addressed record is snoozed, and the reply is "Reminder snoozed to: " with its new date formatted |
| `YophoneBot.ViewStep` | bot/yophoneBot.js:77-85 | view_reminders leaves the table alone, and its message is the header alone exactly when the user has no active reminder |
| `YophoneBot.HistoryStep` | bot/yophoneBot.js:127-135 | view_history leaves the table alone, and its message is the header alone exactly when the user has no completed reminder |
| `YophoneBot.Respond` | bot/yophoneBot.js:191-226 | every command keeps the table valid. A null intent gets the parse-failure text and changes nothing. help and hi get the help message, and an unknown action gets "Unknown command". Those and the two views never change the table, and a handler's failure text means the table is as it was |
| `YophoneBot.Reach` | bot/yophoneBot.js:235-243 | the loop gets through exactly the updates before the first null update or update without a text, since reading either throws and the catch ends the batch |
| `YophoneBot.ReachAll` | bot/yophoneBot.js:235-243 | every message of a batch is handled exactly when every update in it has a text |
| `YophoneBot.Replay` | bot/yophoneBot.js:228-244 | handling the readable messages of a batch keeps the table valid and produces one reply per message, in order, each to that message's sender |
| `YophoneBot.Bot.constructor` | bot/yophoneBot.js:1-17 | the bot starts over a valid store, with the help message of bot/yophoneBot.js:138-188 and no message sent |
| `YophoneBot.Bot.SendMessage` | bot/yophoneBot.js:19-26 | sending appends exactly one message; transport errors are swallowed |
| `YophoneBot.Bot.HandleSetReminder` | bot/yophoneBot.js:58-75 | leaves exactly the table of `SetStep` and sends its reply to the chat |
| `YophoneBot.Bot.HandleViewReminders` | bot/yophoneBot.js:77-85 | changes no record and sends "Your reminders:\n" followed by the newline-joined lines of the user's active reminders |
| `YophoneBot.Bot.HandleUpdateReminder` | bot/yophoneBot.js:87-103 | leaves exactly the table of `UpdateStep` and sends its reply to the chat |
| `YophoneBot.Bot.HandleDeleteReminder` | bot/yophoneBot.js:105-114 | leaves exactly the table of `DeleteStep` and sends its reply to the chat |
| `YophoneBot.Bot.HandleSnoozeReminder` | bot/yophoneBot.js:116-125 | leaves exactly the table of `SnoozeStep` and sends its reply to the chat |
| `YophoneBot.Bot.HandleViewHistory` | bot/yophoneBot.js:127-135 | changes no record and sends "Your completed reminders:\n" followed by the lines of the user's completed reminders |
| `YophoneBot.Bot.HandleHelp` | bot/yophoneBot.js:137-189 | sends the help message and nothing else |
| `YophoneBot.Bot.HandleCommand` | bot/yophoneBot.js:191-226 | sends exactly one message, to the sender, and leaves exactly the table `Respond` gives, so each action has the effect and reply of its own handler |
| `YophoneBot.Bot.PollUpdates` | bot/yophoneBot.js:228-244 | a fetched batch leaves exactly the table and the replies `Replay` gives for the updates before the first one that throws (`Reach`), and nothing after it is answered; a failed fetch changes nothing |

## Left out

- `parseCommand` (the OpenAI chat-completion call and `JSON.parse`) is not modelled. Its result is the input `Option<Intent>`. `None` covers a failed call, an unparsable reply and a falsy JSON value.
- The fields of an intent are typed (`Field<string>`, `Field<int>`). JSON values of another type are not modelled. This includes a numeric `text` and a string `id` or `snoozeTime` that JavaScript would coerce.
- `YophoneBot.Reach`: an update's `chatId` is a string and its `text` a string, null or missing. A text of another JSON type (a number or a plain object, which make `Buffer.from` throw, or an array or array-like object, which it accepts) is not modelled.
- Fractional `snoozeTime` values are not modelled, because minutes are integers.
- The HTTP calls `sendMessage`, `setCommands` and `getUpdates` are network I/O. `sendMessage` becomes an append to `outbox`, and a batch that could not be fetched is `None`.
- The `setInterval` timer, `startPolling` and overlapping ticks are scheduling and concurrency, and are not modelled. One `PollUpdates` call is one tick.
- Base64 decoding is the parameter `decode`, and the language model is the parameter `interpret`. The clock reading for each message of a batch is the parameter `clock`.
- date-fns `parse` and `format` are library code. They are the parameters `parse` and `format`. `format` is only applied to valid dates, because every stored date is valid.
- The `console.log` and `console.error` calls (bot/utils.js:12, 29; bot/yophoneBot.js:22, 24, 37, 39, 53, 229, 232, 238, 242) are logging only and are left out.
- Calendar arithmetic uses UTC. Time zones, daylight saving and the ECMAScript limit of ±8.64e15 ms on time values are not modelled. Nor is the narrower range of PostgreSQL's `timestamptz` (4713 BC to 294276 AD): a date outside it that JavaScript still represents, such as the result of a snooze by about −6.3e9 minutes, would be refused by the database and answered with the failure text, while the model stores it and reports success.
- The separate `new Date()` reads inside one handler call are modelled as one clock reading.
- Sequelize's timestamps (`createdAt`, `updatedAt`) and its rejection of arrays or objects in STRING columns are not modelled.
- The `completed` column: the model assumes the table has a boolean `completed` column that defaults to false. The schema in models/reminder.js:4-25 declares no such column, and `sequelize.sync()` (app.js:14) creates the table without it. On that table both `findAll` queries (services/reminderService.js:10, 14) fail, so the bot would answer every view with its failure text. If the column existed without a default, new rows would hold NULL and appear in neither list. Neither table is modelled.
- Database failures other than a missing key or a refused record are not modelled, for example a lost connection or the missing column above.
- `YophoneBot.Bot.HandleViewReminders`: the model never sends "Failed to get reminders.". With the `completed` column assumed above and no connection failures, the query cannot fail.
- `YophoneBot.Bot.HandleViewHistory`: the model never sends "Failed to get completed reminders.", for the same reason.
- `ReminderService.ReminderStore.GetReminders`: it returns records in ascending key order. The database promises no order, so this order is one admissible choice.
- `ReminderService.ReminderStore.GetCompletedReminders`: it returns records in ascending key order, for the same reason.
- Nothing in the code marks a reminder completed, sends due notifications or expands a recurrence, so the model does not either.
- controllers/reminderController.js, routes/reminders.js, routes/webhook.js, app.js and config/database.js are not part of this model. They are Express routing and the connection setup.

=== FILE: common.dfy ===
/** Values shared by every module of the model. */
module Common {

  /** A value that may be null or undefined (None). */
  datatype Option<+T> = None | Some(value: T)

  /** A property of a JavaScript object as the program reads it: not present
      (undefined), present but null, or present with a value. The bot's intents
      come from JSON, so every property of an intent is a Field. */
  datatype Field<+T> = Missing | Null | Value(value: T)

  /** The value a property contributes where undefined and null behave alike. */
  function Nullable<T>(f: Field<T>): (r: Option<T>)
    ensures r.Some? <==> f.Value?
    ensures r.Some? ==> r.value == f.value
  {
    match f
    case Value(v) => Some(v)
    case _ => None
  }
}

=== FILE: reminder.dfy ===
/** The Reminder record of models/reminder.js. Every column the schema
    declares may hold null in the record type; Valid says which of them the
    schema declares `allowNull: false`. The schema declares no `completed`
    column; the record has one because the reminder service filters on it. */
module ReminderModel {
  import opened Common
  import opened Time

  datatype Reminder = Reminder(
    id: int,
    text: Option<string>,
    date: Option<Moment>,
    recurrence: Option<string>,
    priority: Option<string>,
    userId: Option<string>,
    completed: bool)

  /** text, date, priority and userId are required; recurrence may be null. */
  predicate Valid(r: Reminder) {
    r.text.Some? && r.date.Some? && r.priority.Some? && r.userId.Some?
  }

  /** The attribute object handed to Reminder.create or reminder.update. */
  datatype Attributes = Attributes(
    text: Field<string>,
    date: Field<Moment>,
    recurrence: Field<string>,
    priority: Field<string>,
    userId: Field<string>)

  /** Reminder.create: a record with the given id, `completed` false, and every
      attribute that is not given set to null. */
  function Build(id: int, a: Attributes): (r: Reminder)
    ensures r.id == id && !r.completed
    ensures Valid(r) <==> a.text.Value? && a.date.Value? && a.priority.Value? && a.userId.Value?
    ensures r.recurrence == Nullable(a.recurrence)
  {
    Reminder(id, Nullable(a.text), Nullable(a.date), Nullable(a.recurrence),
             Nullable(a.priority), Nullable(a.userId), false)
  }

  /** One column under reminder.update: an undefined attribute is skipped, a
      null one clears the column, any other value replaces it. */
  function Assign<T>(current: Option<T>, f: Field<T>): (r: Option<T>)
    ensures f.Missing? ==> r == current
    ensures !f.Missing? ==> r == Nullable(f)
  {
    match f
    case Missing => current
    case Null => None
    case Value(v) => Some(v)
  }

  /** reminder.update: merges the attributes into the record. */
  function Merge(r: Reminder, a: Attributes): (r': Reminder)
    ensures r'.id == r.id && r'.completed == r.completed
    ensures Valid(r) ==>
      (Valid(r') <==> !a.text.Null? && !a.date.Null? && !a.priority.Null? && !a.userId.Null?)
  {
    r.(text := Assign(r.text, a.text),
       date := Assign(r.date, a.date),
       recurrence := Assign(r.recurrence, a.recurrence),
       priority := Assign(r.priority, a.priority),
       userId := Assign(r.userId, a.userId))
  }

  /** An update that supplies only some attributes leaves the others as they were. */
  lemma MergeKeepsMissing(r: Reminder, a: Attributes)
    ensures a.text.Missing? ==> Merge(r, a).text == r.text
    ensures a.date.Missing? ==> Merge(r, a).date == r.date
    ensures a.recurrence.Missing? ==> Merge(r, a).recurrence == r.recurrence
    ensures a.priority.Missing? ==> Merge(r, a).priority == r.priority
    ensures a.userId.Missing? ==> Merge(r, a).userId == r.userId
  {
  }

  /** Updating only the text changes only the text. */
  lemma MergeTextOnly(r: Reminder, s: string)
    ensures Merge(r, Attributes(Value(s), Missing, Missing, Missing, Missing)) == r.(text := Some(s))
  {
  }

  /** A record without a recurrence satisfies the schema. */
  lemma RecurrenceMayBeNull(id: int, text: string, date: Moment, priority: string, userId: string)
    ensures var r := Build(id, Attributes(Value(text), Value(date), Missing, Value(priority), Value(userId)));
      Valid(r) && r.recurrence.None?
  {
  }
}

=== FILE: reminder_service.dfy ===
/** services/reminderService.js: the Reminder table and the six operations on
    it. The table is a map from primary key to record; `nextId` is the next
    value of the auto-increment key. */
module ReminderService {
  import opened Common
  import opened Time
  import opened ReminderModel

  /** Why an operation failed: no record with that key ("Reminder not found"),
      or the record would break a constraint (a notNull violation, or a date
      the database cannot store). */
  datatype StoreError = NotFound | Rejected

  datatype Result<T> = Ok(value: T) | Err(error: StoreError)

  /** What the database accepts: the schema's constraints, and a date that is
      a real time value (PostgreSQL refuses the invalid date). */
  predicate Storable(r: Reminder)
    ensures Storable(r) ==> r.text.Some? && r.priority.Some? && r.userId.Some? && r.date.Some? && r.date.value.At?
    ensures r.date == Some(Invalid) || !Valid(r) ==> !Storable(r)
  {
    Valid(r) && r.date.value.At?
  }

  /** Every record sits under its own id, below the next id, and is storable. */
  predicate TableOk(rows: map<int, Reminder>, nextId: int) {
    1 <= nextId
    && forall id :: id in rows ==> 1 <= id < nextId && rows[id].id == id && Storable(rows[id])
  }

  /** findByPk: an undefined or null key finds nothing. */
  function Lookup(rows: map<int, Reminder>, id: Field<int>): (r: Option<Reminder>)
    ensures r.Some? <==> id.Value? && id.value in rows
    ensures r.Some? ==> r.value == rows[id.value]
  {
    if id.Value? && id.value in rows then Some(rows[id.value]) else None
  }

  /** JavaScript's numeric reading of snoozeTime: undefined is NaN (None) and
      null is 0. */
  function Minutes(f: Field<int>): (r: Option<int>)
    ensures r.None? <==> f.Missing?
  {
    match f
    case Missing => None
    case Null => Some(0)
    case Value(m) => Some(m)
  }

  /** new Date(date.getTime() + minutes * 60000). */
  function Later(d: Moment, minutes: Option<int>): (r: Moment)
    ensures r.At? <==> d.At? && minutes.Some?
    ensures r.At? ==> r.ms - d.ms == minutes.value * MsPerMinute
  {
    if d.At? && minutes.Some? then At(d.ms + minutes.value * MsPerMinute) else Invalid
  }

  /** The record after snoozeReminder: reminder.update({ date: newDate }). A
      record without a date (which no stored record is) gives the invalid date,
      standing for the TypeError that getTime on null raises. */
  function Snoozed(r: Reminder, minutes: Field<int>): (r': Reminder)
    ensures r' == r.(date := r'.date)
    ensures r.date.Some? && r.date.value.At? && minutes.Value? ==>
      r'.date == Some(At(r.date.value.ms + minutes.value * MsPerMinute))
    ensures minutes.Null? ==> r'.date == r.date || r.date.None?
    ensures minutes.Missing? || r.date.None? ==> r'.date == Some(Invalid)
  {
    var newDate := if r.date.Some? then Later(r.date.value, Minutes(minutes)) else Invalid;
    Merge(r, Attributes(Missing, Value(newDate), Missing, Missing, Missing))
  }

  /** A snoozed record can be stored exactly when snoozeTime is a number. */
  lemma SnoozedStorable(r: Reminder, minutes: Field<int>)
    requires Storable(r)
    ensures Storable(Snoozed(r, minutes)) <==> !minutes.Missing?
  {
  }

  /** Snoozing by m1 and then by m2 is snoozing once by m1 + m2. */
  lemma SnoozeAdditive(r: Reminder, m1: int, m2: int)
    ensures Snoozed(Snoozed(r, Value(m1)), Value(m2)) == Snoozed(r, Value(m1 + m2))
  {
  }

  /** The same, on the whole table: two snoozes of one record leave the table
      as one snooze by the sum does. */
  lemma SnoozeTwiceTable(rows: map<int, Reminder>, nextId: int, id: int, m1: int, m2: int)
    requires TableOk(rows, nextId) && id in rows
    ensures var once := rows[id := Snoozed(rows[id], Value(m1))];
      once[id := Snoozed(once[id], Value(m2))] == rows[id := Snoozed(rows[id], Value(m1 + m2))]
  {
    SnoozeAdditive(rows[id], m1, m2);
  }

  /** The records with keys in [lo, hi) owned by userId whose completed flag is
      `done`, in ascending key order. */
  function Matching(rows: map<int, Reminder>, userId: string, done: bool, lo: int, hi: int): (rs: seq<Reminder>)
    ensures |rs| <= if lo < hi then hi - lo else 0
    ensures forall r :: r in rs ==> r.userId == Some(userId) && r.completed == done
    decreases hi - lo
  {
    if hi <= lo then []
    else
      var rest := Matching(rows, userId, done, lo + 1, hi);
      if lo in rows && rows[lo].userId == Some(userId) && rows[lo].completed == done
      then [rows[lo]] + rest
      else rest
  }

  predicate KeyedById(rows: map<int, Reminder>) {
    forall id :: id in rows ==> rows[id].id == id
  }

  predicate Ascending(rs: seq<Reminder>) {
    forall i, j :: 0 <= i < j < |rs| ==> rs[i].id < rs[j].id
  }

  /** Matching holds exactly the selected records, each once, in key order. */
  lemma {:induction false} MatchingSpec(rows: map<int, Reminder>, userId: string, done: bool, lo: int, hi: int)
    requires KeyedById(rows)
    ensures var rs := Matching(rows, userId, done, lo, hi);
      (forall r :: r in rs <==>
         r.id in rows && rows[r.id] == r && lo <= r.id < hi && r.userId == Some(userId) && r.completed == done)
      && Ascending(rs)
    decreases hi - lo
  {
    var rs := Matching(rows, userId, done, lo, hi);
    if lo < hi {
      MatchingSpec(rows, userId, done, lo + 1, hi);
      var rest := Matching(rows, userId, done, lo + 1, hi);
      if lo in rows && rows[lo].userId == Some(userId) && rows[lo].completed == done {
        assert rs == [rows[lo]] + rest;
        forall i, j | 0 <= i < j < |rs| ensures rs[i].id < rs[j].id {
          if i == 0 {
            assert rs[j] == rest[j - 1] && rest[j - 1] in rest;
          } else {
            assert rs[i] == rest[i - 1] && rs[j] == rest[j - 1];
          }
        }
      }
    }
  }

  /** The list getReminders returns: exactly the user's stored records that are
      not completed, each once, in key order. */
  function Active(rows: map<int, Reminder>, nextId: int, userId: string): (rs: seq<Reminder>)
    requires TableOk(rows, nextId)
    ensures forall r :: r in rs <==> r.id in rows && rows[r.id] == r && r.userId == Some(userId) && !r.completed
    ensures forall r :: r in rs ==> Storable(r)
    ensures Ascending(rs)
  {
    MatchingSpec(rows, userId, false, 1, nextId);
    Matching(rows, userId, false, 1, nextId)
  }

  /** The list getCompletedReminders returns: exactly the user's stored
      records that are completed, each once, in key order. */
  function Completed(rows: map<int, Reminder>, nextId: int, userId: string): (rs: seq<Reminder>)
    requires TableOk(rows, nextId)
    ensures forall r :: r in rs <==> r.id in rows && rows[r.id] == r && r.userId == Some(userId) && r.completed
    ensures forall r :: r in rs ==> Storable(r)
    ensures Ascending(rs)
  {
    MatchingSpec(rows, userId, true, 1, nextId);
    Matching(rows, userId, true, 1, nextId)
  }

  /** A user's active and completed lists share no record, and together they
      hold every record of that user. */
  lemma ActiveCompletedPartition(rows: map<int, Reminder>, nextId: int, userId: string)
    requires TableOk(rows, nextId)
    ensures forall r :: r in Active(rows, nextId, userId) ==> r !in Completed(rows, nextId, userId)
    ensures forall id :: id in rows && rows[id].userId == Some(userId) ==>
      rows[id] in Active(rows, nextId, userId) || rows[id] in Completed(rows, nextId, userId)
  {
  }

  class ReminderStore {
    var rows: map<int, Reminder>
    var nextId: int

    ghost predicate Valid()
      reads this
    {
      TableOk(rows, nextId)
    }

    /** The service over the table as the database holds it. */
    constructor (table: map<int, Reminder>, next: int)
      requires TableOk(table, next)
      ensures Valid() && rows == table && nextId == next
    {
      rows := table;
      nextId := next;
    }

    /** createReminder: inserts a record under a fresh key if it can be stored. */
    method CreateReminder(data: Attributes) returns (res: Result<Reminder>)
      requires Valid()
      modifies this
      ensures Valid()
      ensures old(nextId) !in old(rows)
      ensures var r := Build(old(nextId), data);
        if Storable(r) then
          res == Ok(r) && rows == old(rows)[r.id := r] && nextId == old(nextId) + 1
        else
          res == Err(Rejected) && unchanged(this)
    {
      var r := Build(nextId, data);
      if !Storable(r) {
        return Err(Rejected);
      }
      rows := rows[nextId := r];
      nextId := nextId + 1;
      res := Ok(r);
    }

    /** getReminders: the user's records that are not completed. */
    method GetReminders(userId: string) returns (rs: seq<Reminder>)
      requires Valid()
      ensures rs == Active(rows, nextId, userId)
    {
      rs := Matching(rows, userId, false, 1, nextId);
    }

    /** getCompletedReminders: the user's completed records. */
    method GetCompletedReminders(userId: string) returns (rs: seq<Reminder>)
      requires Valid()
      ensures rs == Completed(rows, nextId, userId)
    {
      rs := Matching(rows, userId, true, 1, nextId);
    }

    /** updateReminder: merges the attributes into the record with that key. */
    method UpdateReminder(id: Field<int>, data: Attributes) returns (res: Result<Reminder>)
      requires Valid()
      modifies this
      ensures Valid() && nextId == old(nextId)
      ensures res.Ok? ==> Storable(res.value)
      ensures Lookup(old(rows), id).None? ==> res == Err(NotFound) && unchanged(this)
      ensures Lookup(old(rows), id).Some? ==>
        var r := Merge(old(rows)[id.value], data);
        if Storable(r) then res == Ok(r) && rows == old(rows)[id.value := r]
        else res == Err(Rejected) && unchanged(this)
    {
      var found := Lookup(rows, id);
      if found.None? {
        return Err(NotFound);
      }
      var r := Merge(found.value, data);
      if !Storable(r) {
        return Err(Rejected);
      }
      rows := rows[id.value := r];
      res := Ok(r);
    }

    /** deleteReminder: removes the record with that key. */
    method DeleteReminder(id: Field<int>) returns (res: Result<()>)
      requires Valid()
      modifies this
      ensures Valid() && nextId == old(nextId)
      ensures Lookup(old(rows), id).None? ==> res == Err(NotFound) && unchanged(this)
      ensures Lookup(old(rows), id).Some? ==> res == Ok(()) && rows == old(rows) - {id.value}
    {
      var found := Lookup(rows, id);
      if found.None? {
        return Err(NotFound);
      }
      rows := rows - {id.value};
      res := Ok(());
    }

    /** snoozeReminder: moves the record's date by snoozeTime minutes. */
    method SnoozeReminder(id: Field<int>, snoozeTime: Field<int>) returns (res: Result<Reminder>)
      requires Valid()
      modifies this
      ensures Valid() && nextId == old(nextId)
      ensures res.Ok? ==> Storable(res.value)
      ensures Lookup(old(rows), id).None? ==> res == Err(NotFound) && unchanged(this)
      ensures Lookup(old(rows), id).Some? ==>
        var r := Snoozed(old(rows)[id.value], snoozeTime);
        if !snoozeTime.Missing? then res == Ok(r) && rows == old(rows)[id.value := r]
        else res == Err(Rejected) && unchanged(this)
    {
      var found := Lookup(rows, id);
      if found.None? {
        return Err(NotFound);
      }
      var key: int := id.value;
      assert Storable(rows[key]);
      var r := Snoozed(found.value, snoozeTime);
      SnoozedStorable(found.value, snoozeTime);
      if !Storable(r) {
        return Err(Rejected);
      }
      rows := rows[id.value := r];
      res := Ok(r);
    }
  }
}

=== FILE: time.dfy ===
/** JavaScript dates and the date-fns helpers the bot uses on them.
    A date is either the invalid date (time value NaN) or a time value in
    milliseconds. Local time is taken to be UTC: there are no time zones and
    no daylight-saving shifts, so a day is always 86 400 000 ms. */
module Time {
  import opened Common

  const MsPerMinute: int := 60000
  const MsPerHour: int := 3600000
  const MsPerDay: int := 86400000

  datatype Moment = Invalid | At(ms: int)

  /** Calendar fields of a time value (Dafny's division floors for a positive
      divisor, as ECMAScript's Day and HourFromTime do). */
  function Day(t: int): int { t / MsPerDay }
  function HourOf(t: int): int { t % MsPerDay / MsPerHour }
  function MinuteOf(t: int): int { t % MsPerHour / MsPerMinute }
  /** Seconds and milliseconds together. */
  function SubMinute(t: int): int { t % MsPerMinute }

  lemma Split(t: int)
    ensures 0 <= HourOf(t) < 24 && 0 <= MinuteOf(t) < 60 && 0 <= SubMinute(t) < MsPerMinute
    ensures t == Day(t) * MsPerDay + HourOf(t) * MsPerHour + MinuteOf(t) * MsPerMinute + SubMinute(t)
  {
    var r := t % MsPerDay;
    assert t == Day(t) * MsPerDay + r;
    var rh := r % MsPerHour;
    assert r == r / MsPerHour * MsPerHour + rh;
    Unique(Day(t) * 24 + r / MsPerHour, rh, MsPerHour);
    assert t % MsPerHour == rh;
    var rm := rh % MsPerMinute;
    assert rh == rh / MsPerMinute * MsPerMinute + rm;
    Unique(t / MsPerHour * 60 + rh / MsPerMinute, rm, MsPerMinute);
    assert t % MsPerMinute == rm;
  }

  lemma Compose(day: int, h: int, m: int, s: int)
    requires 0 <= h < 24 && 0 <= m < 60 && 0 <= s < MsPerMinute
    ensures var t := day * MsPerDay + h * MsPerHour + m * MsPerMinute + s;
      Day(t) == day && HourOf(t) == h && MinuteOf(t) == m && SubMinute(t) == s
  {
    var x := h * MsPerHour + m * MsPerMinute + s;
    var t := day * MsPerDay + x;
    Unique(day, x, MsPerDay);
    Unique(h, m * MsPerMinute + s, MsPerHour);
    Unique(day * 24 + h, m * MsPerMinute + s, MsPerHour);
    Unique(m, s, MsPerMinute);
    Unique(day * 1440 + h * 60 + m, s, MsPerMinute);
  }

  /** Quotient and remainder are unique for the three divisors used here. */
  lemma Unique(q: int, r: int, n: int)
    requires n == MsPerDay || n == MsPerHour || n == MsPerMinute
    requires 0 <= r < n
    ensures (q * n + r) / n == q && (q * n + r) % n == r
  {
  }

  /** date-fns addDays. */
  function AddDays(d: Moment, n: int): (r: Moment)
    ensures r.At? <==> d.At?
    ensures r.At? ==> Day(r.ms) == Day(d.ms) + n && HourOf(r.ms) == HourOf(d.ms)
                      && MinuteOf(r.ms) == MinuteOf(d.ms) && SubMinute(r.ms) == SubMinute(d.ms)
  {
    match d
    case Invalid => Invalid
    case At(t) =>
      Split(t);
      Compose(Day(t) + n, HourOf(t), MinuteOf(t), SubMinute(t));
      At(t + n * MsPerDay)
  }

  /** Date.prototype.getHours and getMinutes: NaN (None) on the invalid date. */
  function GetHours(d: Moment): (r: Option<int>)
    ensures r.Some? <==> d.At?
    ensures r.Some? ==> 0 <= r.value < 24
  {
    match d
    case Invalid => None
    case At(t) => Split(t); Some(HourOf(t))
  }

  function GetMinutes(d: Moment): (r: Option<int>)
    ensures r.Some? <==> d.At?
    ensures r.Some? ==> 0 <= r.value < 60
  {
    match d
    case Invalid => None
    case At(t) => Split(t); Some(MinuteOf(t))
  }

  /** date-fns setMinutes: replaces the minute field and keeps the others; a
      minute count outside 0..59 carries into the hours, as in ECMAScript's
      MakeTime. A NaN argument or an invalid date gives the invalid date. */
  function SetMinutes(d: Moment, m: Option<int>): (r: Moment)
    ensures r.At? <==> d.At? && m.Some?
    ensures r.At? && 0 <= m.value < 60 ==>
      Day(r.ms) == Day(d.ms) && HourOf(r.ms) == HourOf(d.ms)
      && MinuteOf(r.ms) == m.value && SubMinute(r.ms) == SubMinute(d.ms)
  {
    if d.At? && m.Some? then
      var t := d.ms;
      Split(t);
      if 0 <= m.value < 60 then Compose(Day(t), HourOf(t), m.value, SubMinute(t)); At(t + (m.value - MinuteOf(t)) * MsPerMinute)
      else At(t + (m.value - MinuteOf(t)) * MsPerMinute)
    else Invalid
  }

  /** date-fns setHours, with the same conventions as SetMinutes. */
  function SetHours(d: Moment, h: Option<int>): (r: Moment)
    ensures r.At? <==> d.At? && h.Some?
    ensures r.At? && 0 <= h.value < 24 ==>
      Day(r.ms) == Day(d.ms) && HourOf(r.ms) == h.value
      && MinuteOf(r.ms) == MinuteOf(d.ms) && SubMinute(r.ms) == SubMinute(d.ms)
  {
    if d.At? && h.Some? then
      var t := d.ms;
      Split(t);
      if 0 <= h.value < 24 then Compose(Day(t), h.value, MinuteOf(t), SubMinute(t)); At(t + (h.value - HourOf(t)) * MsPerHour)
      else At(t + (h.value - HourOf(t)) * MsPerHour)
    else Invalid
  }
}

=== FILE: utils.dfy ===
/** Date, time and recurrence normalisation of bot/utils.js. The clock
    (`new Date()`) is the parameter `now`, a time value in milliseconds, and
    date-fns `parse` is the parameter `parse`. */
module Utils {
  import opened Common
  import opened Time

  /** date-fns parse(input, pattern, referenceDate): the date it returns, which
      is the invalid date when the input does not match, or None when it
      throws. */
  type Parser = (string, string) -> Option<Moment>

  const DatePattern: string := "yyyy-MM-dd"
  const TimePattern: string := "HH:mm"

  /** `!s` for a string that may be null or undefined. */
  predicate Falsy(s: Option<string>) {
    s.None? || s.value == ""
  }

  /** The fallback date: now plus one day. */
  function Tomorrow(now: int): Moment {
    AddDays(At(now), 1)
  }

  /** Either the fallback, or exactly what parse returned for the string. */
  function ParseDate(s: Option<string>, now: int, parse: Parser): (r: Moment)
    ensures r == Tomorrow(now) || (!Falsy(s) && parse(s.value, DatePattern) == Some(r))
    ensures Falsy(s) ==> r == Tomorrow(now)
  {
    if Falsy(s) then Tomorrow(now)
    else
      match parse(s.value, DatePattern)
      case None => Tomorrow(now)
      case Some(date) => date
  }

  function ParseTime(s: Option<string>, date: Moment, parse: Parser): (r: Moment)
    ensures r.At? ==> date.At? && Day(r.ms) == Day(date.ms) && SubMinute(r.ms) == SubMinute(date.ms)
  {
    if Falsy(s) then SetHours(SetMinutes(date, Some(0)), Some(9))
    else
      match parse(s.value, TimePattern)
      case None => SetHours(SetMinutes(date, Some(0)), Some(9))
      case Some(time) => SetHours(SetMinutes(date, GetMinutes(time)), GetHours(time))
  }

  function ParseRecurrence(s: Option<string>): (r: string)
    ensures r == "" <==> Falsy(s)
    ensures !Falsy(s) ==> r == s.value
  {
    if Falsy(s) then "" else s.value
  }

  /** Without a date string, or when parse throws, the date is tomorrow at the
      current time of day. */
  lemma ParseDateFallback(s: Option<string>, now: int, parse: Parser)
    requires Falsy(s) || parse(s.value, DatePattern).None?
    ensures var r := ParseDate(s, now, parse);
      r == At(now + MsPerDay) && Day(r.ms) == Day(now) + 1
      && HourOf(r.ms) == HourOf(now) && MinuteOf(r.ms) == MinuteOf(now)
  {
  }

  /** Whatever parse returns is used as is, even the invalid date of a
      malformed string: only an exception falls back to tomorrow. */
  lemma ParseDateParsed(s: Option<string>, now: int, parse: Parser, d: Moment)
    requires !Falsy(s) && parse(s.value, DatePattern) == Some(d)
    ensures ParseDate(s, now, parse) == d
  {
  }

  /** Without a time string, or when parse throws, the time becomes 09:00 on
      the same day; seconds and milliseconds are kept. */
  lemma ParseTimeDefault(s: Option<string>, date: Moment, parse: Parser)
    requires Falsy(s) || parse(s.value, TimePattern).None?
    ensures var r := ParseTime(s, date, parse);
      (r.At? <==> date.At?)
      && (r.At? ==> Day(r.ms) == Day(date.ms) && HourOf(r.ms) == 9 && MinuteOf(r.ms) == 0
                    && SubMinute(r.ms) == SubMinute(date.ms))
  {
    var m := SetMinutes(date, Some(0));
    assert m.At? ==> HourOf(m.ms) == HourOf(date.ms);
  }

  /** A parsed HH:mm time gives its hour and minute to the date. */
  lemma ParseTimeParsed(s: Option<string>, date: Moment, parse: Parser, time: int)
    requires !Falsy(s) && parse(s.value, TimePattern) == Some(At(time))
    ensures var r := ParseTime(s, date, parse);
      (r.At? <==> date.At?)
      && (r.At? ==> Day(r.ms) == Day(date.ms) && HourOf(r.ms) == HourOf(time)
                    && MinuteOf(r.ms) == MinuteOf(time) && SubMinute(r.ms) == SubMinute(date.ms))
  {
    var hm := GetHours(At(time));
    var mm := GetMinutes(At(time));
    var m := SetMinutes(date, mm);
    assert m.At? ==> HourOf(m.ms) == HourOf(date.ms);
  }

  /** A time string that parses to the invalid date makes the result invalid. */
  lemma ParseTimeInvalid(s: Option<string>, date: Moment, parse: Parser)
    requires !Falsy(s) && parse(s.value, TimePattern) == Some(Invalid)
    ensures ParseTime(s, date, parse) == Invalid
  {
  }

  /** Normalising a recurrence twice changes nothing. */
  lemma ParseRecurrenceIdempotent(s: Option<string>)
    ensures ParseRecurrence(Some(ParseRecurrence(s))) == ParseRecurrence(s)
  {
  }
}

=== FILE: yophone_bot.dfy ===
/** bot/yophoneBot.js: the command dispatcher, its handlers and the poll loop.
    The language model's reply is an input (`Option<Intent>`, None for a failed
    call or an unusable reply); sendMessage appends to `outbox`. */
module YophoneBot {
  import opened Common
  import opened Time
  import opened Utils
  import opened ReminderModel
  import opened ReminderService

  /** The object the language model returns for one message. */
  datatype Intent = Intent(
    action: Field<string>,
    id: Field<int>,
    text: Field<string>,
    date: Field<string>,
    time: Field<string>,
    recurrence: Field<string>,
    priority: Field<string>,
    snoozeTime: Field<int>)

  /** date-fns as the bot uses it: parse, and format(date, 'yyyy-MM-dd HH:mm')
      of a valid time value. */
  datatype DateFns = DateFns(parse: Parser, format: int -> string)

  datatype Message = Message(to: string, text: string)

  /** One element of a getUpdates batch: null, or an inbound message whose
      text, still base64-encoded, may be missing or null. */
  datatype Update = NullUpdate | Incoming(chatId: string, text: Field<string>)

  datatype Command =
    | SetReminder | ViewReminders | UpdateReminder | DeleteReminder
    | SnoozeReminder | ViewHistory | Help | Unknown

  /** The action strings each case of the switch accepts. */
  function Names(c: Command): set<string> {
    match c
    case SetReminder => {"set_reminder"}
    case ViewReminders => {"view_reminders"}
    case UpdateReminder => {"update_reminder"}
    case DeleteReminder => {"delete_reminder"}
    case SnoozeReminder => {"snooze_reminder"}
    case ViewHistory => {"view_history"}
    case Help => {"help", "hi"}
    case Unknown => {}
  }

  /** The switch on parsedCommand.action: strict equality with each case label
      in turn, the default case for anything else. */
  function CommandOf(action: Field<string>): (c: Command)
    ensures c != Unknown ==> action.Value? && action.value in Names(c)
  {
    if action == Value("set_reminder") then SetReminder
    else if action == Value("view_reminders") then ViewReminders
    else if action == Value("update_reminder") then UpdateReminder
    else if action == Value("delete_reminder") then DeleteReminder
    else if action == Value("snooze_reminder") then SnoozeReminder
    else if action == Value("view_history") then ViewHistory
    else if action == Value("help") || action == Value("hi") then Help
    else Unknown
  }

  /** Every action string the switch names. */
  const KnownActions: set<string> :=
    Names(SetReminder) + Names(ViewReminders) + Names(UpdateReminder) + Names(DeleteReminder)
    + Names(SnoozeReminder) + Names(ViewHistory) + Names(Help)

  /** Each action string selects the one command that lists it; an absent,
      null or unlisted action selects Unknown. */
  lemma CommandOfNames(action: Field<string>, c: Command)
    ensures action.Value? && action.value in Names(c) ==> CommandOf(action) == c
    ensures CommandOf(action) == Unknown <==> !(action.Value? && action.value in KnownActions)
  {
  }

  // ----- Messages -----

  const ParseFailedText: string := "Failed to parse command. Please try again."
  const UnknownText: string := "Unknown command"
  const CreateFailedText: string := "Failed to create reminder." + FormatHint
  const ViewFailedText: string := "Failed to get reminders."
  const UpdateFailedText: string := "Failed to update reminder." + FormatHint
  const FormatHint: string := " Please check the format and try again."
  const DeleteFailedText: string := "Failed to delete reminder."
  const SnoozeFailedText: string := "Failed to snooze reminder."
  const HistoryFailedText: string := "Failed to get completed reminders."
  const DeletedText: string := "Reminder deleted."
  const RemindersHeader: string := "Your reminders:\n"
  const HistoryHeader: string := "Your completed reminders:\n"

  /** The failure message of each handler that can fail. */
  function FailureText(c: Command): Option<string> {
    match c
    case SetReminder => Some(CreateFailedText)
    case ViewReminders => Some(ViewFailedText)
    case UpdateReminder => Some(UpdateFailedText)
    case DeleteReminder => Some(DeleteFailedText)
    case SnoozeReminder => Some(SnoozeFailedText)
    case ViewHistory => Some(HistoryFailedText)
    case _ => None
  }

  const HelpText: string :=
    "\nWelcome to the Reminder Bot! Here\U{2019}s how you can manage your reminders:\n"
    + "\n1. Set Reminder:\n"
    + "Command: set reminder <text>, <date>, <time>, <recurrence>, <priority>\n"
    + "Example: set reminder Buy groceries, 2023-10-15, 10:00, daily, high\n"
    + "Description: Creates a new reminder with specified details. If date or time is missing, defaults will be used.\n"
    + "\n2. View Reminders:\n"
    + "Command: view reminders\n"
    + "Example: view reminders\n"
    + "Description: Lists all your active reminders.\n"
    + "\n3. Update Reminder:\n"
    + "Command: update reminder <id> <text>, <date>, <time>, <recurrence>, <priority>\n"
    + "Example: update reminder 1 Buy groceries, 2023-10-16, 11:00, weekly, medium\n"
    + "Description: Updates the reminder with the specified ID.\n"
    + "\n4. Delete Reminder:\n"
    + "Command: delete reminder <id>\n"
    + "Example: delete reminder 1\n"
    + "Description: Deletes the reminder with the specified ID.\n"
    + "\n5. Snooze Reminder:\n"
    + "Command: snooze reminder <id> <minutes>\n"
    + "Example: snooze reminder 1 10\n"
    + "Description: Snoozes the reminder for the specified number of minutes.\n"
    + "\n6. View History:\n"
    + "Command: view history\n"
    + "Example: view history\n"
    + "Description: Lists all your completed reminders.\n"
    + "\n7. Start:\n"
    + "Command: start\n"
    + "Example: start\n"
    + "Description: Starts the bot and provides a greeting message.\n"
    + "\n8. Help:\n"
    + "Command: help\n"
    + "Example: help\n"
    + "Description: Displays this help message.\n"
    + "\n9. Greeting:\n"
    + "Command: hi\n"
    + "Example: hi\n"
    + "Description: Greets the bot and starts the conversation.\n"
    + "\nIf you have any questions or need further assistance, just ask!\n  "

  /** A template-literal substitution of a column that may be null. */
  function Show(s: Option<string>): string {
    match s
    case Some(v) => v
    case None => "null"
  }

  function DigitChar(d: int): char
    requires 0 <= d < 10
  {
    "0123456789"[d]
  }

  /** The decimal text of a natural number. */
  function NatText(n: nat): (s: string)
    ensures |s| >= 1
    ensures forall k :: 0 <= k < |s| ==> '0' <= s[k] <= '9'
  {
    if n < 10 then [DigitChar(n)] else NatText(n / 10) + [DigitChar(n % 10)]
  }

  /** The decimal text of an integer, as a template literal prints it. */
  function IntText(i: int): (s: string)
    ensures |s| >= 1
    ensures s[0] == '-' <==> i < 0
  {
    if i < 0 then "-" + NatText(-i) else NatText(i)
  }

  /** A record whose date date-fns can format. */
  predicate Dated(r: Reminder) {
    r.date.Some? && r.date.value.At?
  }

  function When(r: Reminder, format: int -> string): string
    requires Dated(r)
  {
    format(r.date.value.ms)
  }

  /** The reply to a created reminder: its text, formatted date, recurrence
      and priority. */
  function CreatedText(r: Reminder, format: int -> string): (s: string)
    requires Dated(r)
    ensures "Reminder created: " + Show(r.text) + " on " + When(r, format)
      + " with recurrence: " + Show(r.recurrence) + " and priority: " <= s
    ensures |Show(r.priority)| <= |s| && s[|s| - |Show(r.priority)|..] == Show(r.priority)
    ensures s[0] == 'R'
  {
    "Reminder created: " + Show(r.text) + " on " + When(r, format)
    + " with recurrence: " + Show(r.recurrence) + " and priority: " + Show(r.priority)
  }

  /** The reply to an updated reminder, in the same shape as a created one. */
  function UpdatedText(r: Reminder, format: int -> string): (s: string)
    requires Dated(r)
    ensures "Reminder updated: " + Show(r.text) + " on " + When(r, format)
      + " with recurrence: " + Show(r.recurrence) + " and priority: " <= s
    ensures |Show(r.priority)| <= |s| && s[|s| - |Show(r.priority)|..] == Show(r.priority)
    ensures s[0] == 'R'
  {
    "Reminder updated: " + Show(r.text) + " on " + When(r, format)
    + " with recurrence: " + Show(r.recurrence) + " and priority: " + Show(r.priority)
  }

  /** The reply to a snooze: the new date only. */
  function SnoozedText(r: Reminder, format: int -> string): (s: string)
    requires Dated(r)
    ensures "Reminder snoozed to: " <= s && s[|"Reminder snoozed to: "|..] == When(r, format)
    ensures s[0] == 'R'
  {
    "Reminder snoozed to: " + When(r, format)
  }

  /** One line of a listing: `${id}: ${text}${word}${format(date)}`. */
  function Line(r: Reminder, word: string, format: int -> string): (s: string)
    requires Dated(r)
    ensures IntText(r.id) + ": " <= s
  {
    IntText(r.id) + ": " + Show(r.text) + word + When(r, format)
  }

  /** The lines of the listed records joined with newlines. */
  function Lines(rs: seq<Reminder>, word: string, format: int -> string): (s: string)
    requires forall r :: r in rs ==> Dated(r)
    ensures s == "" <==> rs == []
    ensures rs != [] ==> Line(rs[0], word, format) <= s
  {
    if |rs| == 0 then ""
    else if |rs| == 1 then Line(rs[0], word, format)
    else Line(rs[0], word, format) + "\n" + Lines(rs[1..], word, format)
  }

  // ----- The record data the handlers build -----

  /** `priority || 'low'`. */
  function PriorityOr(p: Field<string>): (s: string)
    ensures s != ""
    ensures p.Value? && p.value != "" ==> s == p.value
    ensures !(p.Value? && p.value != "") ==> s == "low"
  {
    if p.Value? && p.value != "" then p.value else "low"
  }

  /** parseTime(time, parseDate(date)): the day comes from the date string,
      and without a time string the time of day is 09:00. */
  function ReminderDate(p: Intent, now: int, parse: Parser): (d: Moment)
    ensures var day := ParseDate(Nullable(p.date), now, parse);
      d.At? ==> day.At? && Day(d.ms) == Day(day.ms)
    ensures var day := ParseDate(Nullable(p.date), now, parse);
      Falsy(Nullable(p.time)) ==> (d.At? <==> day.At?) && (d.At? ==> HourOf(d.ms) == 9 && MinuteOf(d.ms) == 0)
  {
    var day := ParseDate(Nullable(p.date), now, parse);
    if Falsy(Nullable(p.time)) then
      ParseTimeDefault(Nullable(p.time), day, parse);
      ParseTime(Nullable(p.time), day, parse)
    else
      ParseTime(Nullable(p.time), day, parse)
  }

  /** The reminderData of handleSetReminder: every column but the text is
      always supplied, and the owner is the chat. */
  function SetReminderData(p: Intent, chatId: string, now: int, parse: Parser): (a: Attributes)
    ensures a.text == p.text && a.userId == Value(chatId)
    ensures a.date.Value? && a.recurrence.Value? && a.priority.Value? && a.priority.value != ""
  {
    Attributes(p.text, Value(ReminderDate(p, now, parse)),
               Value(ParseRecurrence(Nullable(p.recurrence))),
               Value(PriorityOr(p.priority)), Value(chatId))
  }

  /** The reminderData of handleUpdateReminder: the same columns as for a new
      reminder, without the owner. */
  function UpdateData(p: Intent, now: int, parse: Parser): (a: Attributes)
    ensures a.userId.Missing?
    ensures forall chatId :: a == SetReminderData(p, chatId, now, parse).(userId := Missing)
  {
    Attributes(p.text, Value(ReminderDate(p, now, parse)),
               Value(ParseRecurrence(Nullable(p.recurrence))),
               Value(PriorityOr(p.priority)), Missing)
  }

  /** The record set_reminder asks the store to create: owned by the chat,
      priority defaulting to 'low', date and recurrence normalised; it can be
      stored exactly when the intent has a text and the date is valid. */
  lemma SetReminderRecord(p: Intent, chatId: string, id: int, now: int, parse: Parser)
    ensures var r := Build(id, SetReminderData(p, chatId, now, parse));
      && r.userId == Some(chatId)
      && r.priority == Some(PriorityOr(p.priority))
      && r.date == Some(ReminderDate(p, now, parse))
      && r.recurrence == Some(ParseRecurrence(Nullable(p.recurrence)))
      && r.text == Nullable(p.text)
      && !r.completed
      && (Storable(r) <==> p.text.Value? && ReminderDate(p, now, parse).At?)
  {
  }

  /** Without a date and a time the reminder is set for tomorrow at 09:00. */
  lemma DefaultDateIsTomorrowAtNine(p: Intent, now: int, parse: Parser)
    requires Falsy(Nullable(p.date)) && Falsy(Nullable(p.time))
    ensures var d := ReminderDate(p, now, parse);
      d.At? && Day(d.ms) == Day(now) + 1 && HourOf(d.ms) == 9 && MinuteOf(d.ms) == 0
  {
    ParseDateFallback(Nullable(p.date), now, parse);
    ParseTimeDefault(Nullable(p.time), ParseDate(Nullable(p.date), now, parse), parse);
  }

  /** "set reminder Buy groceries, 2023-10-15, 10:00, daily, high": when parse
      reads the date as a midnight and the time as 10:00, the stored record is
      dated that day at 10:00, recurs daily, has priority high and is active. */
  lemma BuyGroceriesExample(chatId: string, id: int, now: int, parse: Parser, day: int, ten: int)
    requires parse("2023-10-15", DatePattern) == Some(At(day))
    requires parse("10:00", TimePattern) == Some(At(ten)) && HourOf(ten) == 10 && MinuteOf(ten) == 0
    ensures var p := Intent(Value("set_reminder"), Missing, Value("Buy groceries"), Value("2023-10-15"),
                            Value("10:00"), Value("daily"), Value("high"), Missing);
      var r := Build(id, SetReminderData(p, chatId, now, parse));
      && Storable(r)
      && Day(r.date.value.ms) == Day(day) && HourOf(r.date.value.ms) == 10 && MinuteOf(r.date.value.ms) == 0
      && r.text == Some("Buy groceries") && r.recurrence == Some("daily") && r.priority == Some("high")
      && r.userId == Some(chatId) && !r.completed
  {
    var p := Intent(Value("set_reminder"), Missing, Value("Buy groceries"), Value("2023-10-15"),
                    Value("10:00"), Value("daily"), Value("high"), Missing);
    ParseDateParsed(Nullable(p.date), now, parse, At(day));
    ParseTimeParsed(Nullable(p.time), At(day), parse, ten);
  }

  /** update_reminder always sends a date and a priority, so an update that
      omits them moves the reminder to tomorrow 09:00 with priority 'low' and
      clears its recurrence to ''; an omitted text is kept, and the owner never
      changes. */
  lemma UpdateOverwritesOmitted(r: Reminder, p: Intent, now: int, parse: Parser)
    requires p.date.Missing? && p.time.Missing? && p.recurrence.Missing? && p.priority.Missing? && p.text.Missing?
    ensures var m := Merge(r, UpdateData(p, now, parse));
      var d := m.date.value;
      && m.date.Some? && d.At? && Day(d.ms) == Day(now) + 1 && HourOf(d.ms) == 9 && MinuteOf(d.ms) == 0
      && m.priority == Some("low") && m.recurrence == Some("")
      && m.text == r.text && m.userId == r.userId && m.id == r.id && m.completed == r.completed
  {
    DefaultDateIsTomorrowAtNine(p, now, parse);
  }

  /** A success message is never the failure message of its handler. */
  lemma SuccessIsNotFailure(r: Reminder, format: int -> string)
    requires Dated(r)
    ensures CreatedText(r, format) != CreateFailedText
    ensures UpdatedText(r, format) != UpdateFailedText
    ensures SnoozedText(r, format) != SnoozeFailedText
  {
    assert CreatedText(r, format)[0] == 'R';
    assert CreateFailedText[0] == 'F';
    assert UpdatedText(r, format)[0] == 'R';
    assert UpdateFailedText[0] == 'F';
    assert SnoozedText(r, format)[0] == 'R' && SnoozeFailedText[0] == 'F';
  }

  // ----- What one command does to the table, and its reply -----

  /** The table after one command and the text sent back for it. */
  datatype Step = Step(rows: map<int, Reminder>, nextId: int, reply: string)

  /** handleSetReminder: the built record is inserted under the next key, or
      nothing changes and the failure text is sent. */
  function SetStep(rows: map<int, Reminder>, nextId: int, p: Intent, chatId: string, now: int, lib: DateFns): (s: Step)
    requires TableOk(rows, nextId)
    ensures TableOk(s.rows, s.nextId)
    ensures s.reply == CreateFailedText <==> !Storable(Build(nextId, SetReminderData(p, chatId, now, lib.parse)))
    ensures s.reply == CreateFailedText <==> s.nextId == nextId
    ensures s.reply == CreateFailedText ==> s.rows == rows
    ensures s.reply != CreateFailedText ==>
      && s.nextId == nextId + 1 && s.rows.Keys == rows.Keys + {nextId} && nextId !in rows
      && (forall k :: k in rows ==> s.rows[k] == rows[k])
      && s.rows[nextId] == Build(nextId, SetReminderData(p, chatId, now, lib.parse))
      && Dated(s.rows[nextId]) && s.reply == CreatedText(s.rows[nextId], lib.format)
  {
    var r := Build(nextId, SetReminderData(p, chatId, now, lib.parse));
    if Storable(r) then
      SuccessIsNotFailure(r, lib.format);
      Step(rows[nextId := r], nextId + 1, CreatedText(r, lib.format))
    else
      Step(rows, nextId, CreateFailedText)
  }

  /** handleUpdateReminder: only the addressed record becomes the merge, or
      nothing changes and the failure text is sent. */
  function UpdateStep(rows: map<int, Reminder>, nextId: int, p: Intent, now: int, lib: DateFns): (s: Step)
    requires TableOk(rows, nextId)
    ensures TableOk(s.rows, s.nextId) && s.nextId == nextId && s.rows.Keys == rows.Keys
    ensures forall k :: k in rows && p.id != Value(k) ==> s.rows[k] == rows[k]
    ensures s.reply == UpdateFailedText <==>
      Lookup(rows, p.id).None? || !Storable(Merge(rows[p.id.value], UpdateData(p, now, lib.parse)))
    ensures s.reply == UpdateFailedText ==> s.rows == rows
    ensures s.reply != UpdateFailedText ==>
      && s.rows[p.id.value] == Merge(rows[p.id.value], UpdateData(p, now, lib.parse))
      && Dated(s.rows[p.id.value]) && s.reply == UpdatedText(s.rows[p.id.value], lib.format)
  {
    match Lookup(rows, p.id)
    case None => Step(rows, nextId, UpdateFailedText)
    case Some(found) =>
      var r := Merge(found, UpdateData(p, now, lib.parse));
      if Storable(r) then
        SuccessIsNotFailure(r, lib.format);
        Step(rows[p.id.value := r], nextId, UpdatedText(r, lib.format))
      else
        Step(rows, nextId, UpdateFailedText)
  }

  /** handleDeleteReminder: exactly the addressed record goes, or nothing
      changes and the failure text is sent. */
  function DeleteStep(rows: map<int, Reminder>, nextId: int, p: Intent): (s: Step)
    requires TableOk(rows, nextId)
    ensures TableOk(s.rows, s.nextId) && s.nextId == nextId
    ensures s.reply == DeleteFailedText <==> Lookup(rows, p.id).None?
    ensures s.reply == DeleteFailedText ==> s.rows == rows
    ensures s.reply != DeleteFailedText ==>
      && s.reply == DeletedText && p.id.value in rows
      && s.rows.Keys == rows.Keys - {p.id.value}
      && (forall k :: k in s.rows ==> s.rows[k] == rows[k])
  {
    if Lookup(rows, p.id).None? then
      Step(rows, nextId, DeleteFailedText)
    else
      assert DeletedText[0] != DeleteFailedText[0];
      Step(rows - {p.id.value}, nextId, DeletedText)
  }

  /** handleSnoozeReminder: only the addressed record's date moves, or nothing
      changes and the failure text is sent. */
  function SnoozeStep(rows: map<int, Reminder>, nextId: int, p: Intent, lib: DateFns): (s: Step)
    requires TableOk(rows, nextId)
    ensures TableOk(s.rows, s.nextId) && s.nextId == nextId && s.rows.Keys == rows.Keys
    ensures forall k :: k in rows && p.id != Value(k) ==> s.rows[k] == rows[k]
    ensures s.reply == SnoozeFailedText <==> Lookup(rows, p.id).None? || p.snoozeTime.Missing?
    ensures s.reply == SnoozeFailedText ==> s.rows == rows
    ensures s.reply != SnoozeFailedText ==>
      && s.rows[p.id.value] == Snoozed(rows[p.id.value], p.snoozeTime)
      && Dated(s.rows[p.id.value]) && s.reply == SnoozedText(s.rows[p.id.value], lib.format)
  {
    if Lookup(rows, p.id).None? || p.snoozeTime.Missing? then
      Step(rows, nextId, SnoozeFailedText)
    else
      var key: int := p.id.value;
      assert Storable(rows[key]);
      var r := Snoozed(rows[key], p.snoozeTime);
      SnoozedStorable(rows[key], p.snoozeTime);
      SuccessIsNotFailure(r, lib.format);
      Step(rows[key := r], nextId, SnoozedText(r, lib.format))
  }

  /** handleViewReminders: the header and the user's active reminders, one
      line each; the table is left alone. */
  function ViewStep(rows: map<int, Reminder>, nextId: int, chatId: string, lib: DateFns): (s: Step)
    requires TableOk(rows, nextId)
    ensures s.rows == rows && s.nextId == nextId
    ensures s.reply == RemindersHeader <==> Active(rows, nextId, chatId) == []
  {
    Step(rows, nextId, RemindersHeader + Lines(Active(rows, nextId, chatId), " at ", lib.format))
  }

  /** handleViewHistory: the header and the user's completed reminders. */
  function HistoryStep(rows: map<int, Reminder>, nextId: int, chatId: string, lib: DateFns): (s: Step)
    requires TableOk(rows, nextId)
    ensures s.rows == rows && s.nextId == nextId
    ensures s.reply == HistoryHeader <==> Completed(rows, nextId, chatId) == []
  {
    Step(rows, nextId, HistoryHeader + Lines(Completed(rows, nextId, chatId), " completed at ", lib.format))
  }

  /** handleCommand: a null intent is answered with the parse failure, any
      other intent by the case of the switch its action selects. */
  function Respond(parsed: Option<Intent>, rows: map<int, Reminder>, nextId: int,
                   chatId: string, now: int, lib: DateFns, help: string): (s: Step)
    requires TableOk(rows, nextId)
    ensures TableOk(s.rows, s.nextId)
    ensures parsed.None? ==> s == Step(rows, nextId, ParseFailedText)
    ensures parsed.Some? && FailureText(CommandOf(parsed.value.action)) == Some(s.reply) ==>
      s.rows == rows && s.nextId == nextId
    ensures parsed.Some? && CommandOf(parsed.value.action) in {ViewReminders, ViewHistory, Help, Unknown} ==>
      s.rows == rows && s.nextId == nextId
    ensures parsed.Some? && CommandOf(parsed.value.action) == Help ==> s.reply == help
    ensures parsed.Some? && CommandOf(parsed.value.action) == Unknown ==> s.reply == UnknownText
  {
    if parsed.None? then Step(rows, nextId, ParseFailedText)
    else
      var p := parsed.value;
      match CommandOf(p.action)
      case SetReminder => SetStep(rows, nextId, p, chatId, now, lib)
      case ViewReminders => ViewStep(rows, nextId, chatId, lib)
      case UpdateReminder => UpdateStep(rows, nextId, p, now, lib)
      case DeleteReminder => DeleteStep(rows, nextId, p)
      case SnoozeReminder => SnoozeStep(rows, nextId, p, lib)
      case ViewHistory => HistoryStep(rows, nextId, chatId, lib)
      case Help => Step(rows, nextId, help)
      case Unknown => Step(rows, nextId, UnknownText)
  }

  /** The state a batch of messages leaves and the replies it produces. */
  datatype Session = Session(rows: map<int, Reminder>, nextId: int, sent: seq<Message>)

  /** The loop gets past this update: reading `chatId` of null throws, and so
      does Buffer.from on an undefined or null text. */
  predicate Readable(u: Update) {
    u.Incoming? && u.text.Value?
  }

  /** How many updates of a batch are handled before the first one that throws;
      the catch around the loop drops that one and everything after it. */
  function Reach(us: seq<Update>): (n: nat)
    ensures n <= |us|
    ensures forall j :: 0 <= j < n ==> Readable(us[j])
    ensures n < |us| ==> !Readable(us[n])
  {
    if us == [] || !Readable(us[0]) then 0 else 1 + Reach(us[1..])
  }

  /** Every message of a batch is answered exactly when every update in it can
      be read. */
  lemma ReachAll(us: seq<Update>)
    ensures Reach(us) == |us| <==> forall j :: 0 <= j < |us| ==> Readable(us[j])
  {
    if Reach(us) < |us| {
      assert !Readable(us[Reach(us)]);
    }
  }

  /** The readable messages of one getUpdates batch handled in order: the i-th
      message is decoded, interpreted at clock(i) and answered, each on the
      table the previous ones left. */
  function Replay(us: seq<Update>, rows: map<int, Reminder>, nextId: int, decode: string -> string,
                  interpret: string -> Option<Intent>, clock: nat -> int, lib: DateFns, help: string): (s: Session)
    requires TableOk(rows, nextId)
    requires forall j :: 0 <= j < |us| ==> us[j].Incoming? && us[j].text.Value?
    ensures TableOk(s.rows, s.nextId)
    ensures |s.sent| == |us| && forall j :: 0 <= j < |us| ==> s.sent[j].to == us[j].chatId
    decreases |us|
  {
    if us == [] then Session(rows, nextId, [])
    else
      var i := |us| - 1;
      var before := Replay(us[..i], rows, nextId, decode, interpret, clock, lib, help);
      var step := Respond(interpret(decode(us[i].text.value)), before.rows, before.nextId, us[i].chatId, clock(i), lib, help);
      Session(step.rows, step.nextId, before.sent + [Message(us[i].chatId, step.reply)])
  }

  class Bot {
    const store: ReminderStore
    /** The help message, the same for every request. */
    const help: string
    var outbox: seq<Message>

    ghost predicate Valid()
      reads this, store
    {
      store.Valid()
    }

    /** The module-level setup: the service over the table, nothing sent. */
    constructor (store: ReminderStore)
      requires store.Valid()
      ensures Valid() && this.store == store && help == HelpText && outbox == []
    {
      this.store := store;
      help := HelpText;
      outbox := [];
    }

    /** sendMessage: transport errors are caught inside, so a call always
        leaves exactly one message. */
    method SendMessage(to: string, text: string)
      modifies this
      ensures outbox == old(outbox) + [Message(to, text)]
    {
      outbox := outbox + [Message(to, text)];
    }

    method HandleSetReminder(p: Intent, chatId: string, now: int, lib: DateFns)
      requires Valid()
      modifies this, store
      ensures Valid()
      ensures var s := SetStep(old(store.rows), old(store.nextId), p, chatId, now, lib);
        store.rows == s.rows && store.nextId == s.nextId && outbox == old(outbox) + [Message(chatId, s.reply)]
    {
      var data := SetReminderData(p, chatId, now, lib.parse);
      var res := store.CreateReminder(data);
      match res
      case Ok(r) => SendMessage(chatId, CreatedText(r, lib.format));
      case Err(_) => SendMessage(chatId, CreateFailedText);
    }

    method HandleViewReminders(chatId: string, lib: DateFns)
      requires Valid()
      modifies this
      ensures Valid() && unchanged(store)
      ensures outbox == old(outbox) + [Message(chatId, ViewStep(store.rows, store.nextId, chatId, lib).reply)]
    {
      var rs := store.GetReminders(chatId);
      SendMessage(chatId, RemindersHeader + Lines(rs, " at ", lib.format));
    }

    method HandleUpdateReminder(p: Intent, chatId: string, now: int, lib: DateFns)
      requires Valid()
      modifies this, store
      ensures Valid()
      ensures var s := UpdateStep(old(store.rows), old(store.nextId), p, now, lib);
        store.rows == s.rows && store.nextId == s.nextId && outbox == old(outbox) + [Message(chatId, s.reply)]
    {
      var data := UpdateData(p, now, lib.parse);
      var res := store.UpdateReminder(p.id, data);
      match res
      case Ok(r) => SendMessage(chatId, UpdatedText(r, lib.format));
      case Err(_) => SendMessage(chatId, UpdateFailedText);
    }

    method HandleDeleteReminder(p: Intent, chatId: string)
      requires Valid()
      modifies this, store
      ensures Valid()
      ensures var s := DeleteStep(old(store.rows), old(store.nextId), p);
        store.rows == s.rows && store.nextId == s.nextId && outbox == old(outbox) + [Message(chatId, s.reply)]
    {
      var res := store.DeleteReminder(p.id);
      match res
      case Ok(_) => SendMessage(chatId, DeletedText);
      case Err(_) => SendMessage(chatId, DeleteFailedText);
    }

    method HandleSnoozeReminder(p: Intent, chatId: string, lib: DateFns)
      requires Valid()
      modifies this, store
      ensures Valid()
      ensures var s := SnoozeStep(old(store.rows), old(store.nextId), p, lib);
        store.rows == s.rows && store.nextId == s.nextId && outbox == old(outbox) + [Message(chatId, s.reply)]
    {
      var res := store.SnoozeReminder(p.id, p.snoozeTime);
      match res
      case Ok(r) => SendMessage(chatId, SnoozedText(r, lib.format));
      case Err(_) => SendMessage(chatId, SnoozeFailedText);
    }

    method HandleViewHistory(chatId: string, lib: DateFns)
      requires Valid()
      modifies this
      ensures Valid() && unchanged(store)
      ensures outbox == old(outbox) + [Message(chatId, HistoryStep(store.rows, store.nextId, chatId, lib).reply)]
    {
      var rs := store.GetCompletedReminders(chatId);
      SendMessage(chatId, HistoryHeader + Lines(rs, " completed at ", lib.format));
    }

    method HandleHelp(chatId: string)
      modifies this
      ensures outbox == old(outbox) + [Message(chatId, help)]
    {
      SendMessage(chatId, help);
    }

    /** handleCommand: one reply to the sender, and the table Respond gives. */
    method HandleCommand(parsed: Option<Intent>, chatId: string, now: int, lib: DateFns)
      requires Valid()
      modifies this, store
      ensures Valid()
      ensures var s := Respond(parsed, old(store.rows), old(store.nextId), chatId, now, lib, help);
        store.rows == s.rows && store.nextId == s.nextId && outbox == old(outbox) + [Message(chatId, s.reply)]
    {
      if parsed.None? {
        SendMessage(chatId, ParseFailedText);
        return;
      }
      var p := parsed.value;
      match CommandOf(p.action)
      case SetReminder => HandleSetReminder(p, chatId, now, lib);
      case ViewReminders => HandleViewReminders(chatId, lib);
      case UpdateReminder => HandleUpdateReminder(p, chatId, now, lib);
      case DeleteReminder => HandleDeleteReminder(p, chatId);
      case SnoozeReminder => HandleSnoozeReminder(p, chatId, lib);
      case ViewHistory => HandleViewHistory(chatId, lib);
      case Help => HandleHelp(chatId);
      case Unknown => SendMessage(chatId, UnknownText);
    }

    /** pollUpdates: a fetched batch is handled message by message, as Replay
        says, up to the first update that throws; a batch that could not be
        fetched (None) changes nothing. */
    method PollUpdates(batch: Option<seq<Update>>, decode: string -> string,
                       interpret: string -> Option<Intent>, clock: nat -> int, lib: DateFns)
      requires Valid()
      modifies this, store
      ensures Valid()
      ensures batch.None? ==> outbox == old(outbox) && unchanged(store)
      ensures batch.Some? ==>
        var s := Replay(batch.value[..Reach(batch.value)], old(store.rows), old(store.nextId),
                        decode, interpret, clock, lib, help);
        store.rows == s.rows && store.nextId == s.nextId && outbox == old(outbox) + s.sent
    {
      if batch.None? {
        return;
      }
      var updates := batch.value;
      var i := 0;
      while i < |updates|
        invariant i <= Reach(updates)
        invariant Valid()
        invariant var s := Replay(updates[..i], old(store.rows), old(store.nextId), decode, interpret, clock, lib, help);
          store.rows == s.rows && store.nextId == s.nextId && outbox == old(outbox) + s.sent
      {
        var u := updates[i];
        if !u.Incoming? || !u.text.Value? {
          // The TypeError is caught outside the loop, which ends the tick.
          break;
        }
        HandleCommand(interpret(decode(u.text.value)), u.chatId, clock(i), lib);
        assert updates[..i + 1][..i] == updates[..i] && updates[..i + 1][i] == u;
        i := i + 1;
      }
      assert i == Reach(updates);
    }
  }
}
